=== FILE: README.md ===
# Whack-a-mole: the game screen and the mole state machine

A Dafny model of the two event-driven state machines under a React Native
whack-a-mole game: the game screen (`src/screens/home-screen.tsx`), which owns
the level, score, countdown, health and the `cleared`/`paused`/`gameover`
flags, two repeating timers and the spawn selection; and the mole
(`src/components/Mole.tsx`), which runs one spawn as a chain of sprite
animations and 1000 ms timeouts and calls `onDamage`, `onScore`, `onHeal` and
`onFinishPopping` on the screen.

- `option.dfy` (module `Opt`): a nullable value.
- `mole.dfy` (module `MoleEntity`): the mole's state as a value, one step
  function per event (`pop`, an animation finishing, a timeout firing, a tap),
  the invariant of one spawn and the lemmas about whole runs of events, and the
  class `Mole` whose methods update the fields in place and are proved equal to
  the step functions.
- `home_screen.dfy` (module `HomeScreen`): the speed, random-range, grid-index
  and health formulas as functions, and the class `Controller` with one method
  per handler and the object invariant `Valid`.
- `game.dfy` (module `Game`): the screen with its twelve moles (`Board`):
  spawn ticks reach a mole through the `molePop` prop, and a mole's callbacks
  are handed to the screen's handlers. Two scenarios close the file.

How the model represents the running program:

- A mole's pending continuations are two slots. `clip` is the animation in
  flight together with the finish callback registered for it. `timeouts` holds
  the pending 1000 ms timeouts, oldest first. Every delay is the same, so they
  fire in the order they were set. `refPending` says whether the timeout
  `actionTimeoutRef` holds is still pending. The ref always holds the timeout
  set last, and nothing resets it after `clearTimeout` or after the timeout
  fires. So `whack` cancels the newest pending timeout only while
  `refPending` holds; otherwise clearing the ref does nothing. Two slots are needed because a
  mole can be popped again while it is still up: the spawn guards never block,
  so the spawn sequence 5, 3, 5 re-pops mole 5. Within one spawn that started
  at rest, at most one continuation is pending (`InCycle`).
- The sprite player is assumed to keep one finish callback: a new `play`
  replaces a finish callback that has not fired, and a finish callback fires
  at most once.
- The decision between attack and hide reads `isFeisty` as captured by the
  `pop` closure: its value before this pop's `setIsFeisty`
  (`Appear(feistyBeforePop)`).
- The two interval timers are tracked as a pair. `ticking` says that the pair
  whose handles sit in `intervalRef`/`timeIntervalRef` is running, and
  `tickSpeed` is its spawn period. `orphans` lists the spawn periods of
  running pairs whose handles `setupTicks` overwrote. `pause` and `gameOver`
  clear only the stored pair. The effect that calls `setupTicks` when
  `state.level` changes is folded into `NextLevel` (the level always changes)
  and `Reset` (when the level was not 1).
- Handlers run one at a time and read the fields as they are when they run.

Where the code does something other than what its comments and names suggest, the model follows the code:

- Health is not clamped in general. Damage is 0 below 10 and otherwise
  health - 16, which is negative for health in [10, 16). A heal is 100 above
  90 and otherwise health + 16, which exceeds 100 for health in (84, 90]. From
  the starting health of 100, only 0, 4, 16, 20, ..., 96, 100 are reachable
  (`HealthLevel`), so health stays in [0, 100].
- The "already popping" and "fewer than 3 popping" spawn guards never block:
  - `molesRef.current` stays empty;
  - the handle in `molesRef[i]` has no `isPopping`;
  - `molesPopping` only ever becomes 0 or decreases.
- The heal branch is chosen by the healing roll even for a feisty mole.
- Whether a spawn attacks does not depend on its own feisty roll. The appear
  callback reads the `isFeisty` left by the mole's previous spawn. So a spawn
  attacks when the previous spawn rolled feisty and was not tapped, whatever
  its own roll, when its own healing roll is false and it is not tapped
  before its timeout fires. A tap clears `isFeisty`, so a feisty spawn after a tapped one
  does not attack. A fresh mole's first feisty spawn does not attack; a second
  feisty spawn does (`FeistyMoleScenario`, `UnwhackedSpawn`).
- Mole 0 can never pop, because its prop is the falsy `0`.
- A tap does not always cancel the mole's own spawn. Say a mole is popped
  twice in a row (spawns 5, 3, 5). Then an attack timeout and a hide timeout
  are pending. A tap cancels the newer one, the hide timeout. A tap after the
  next spawn cancels nothing, because the ref still holds the cleared
  timeout. The older attack then fires and damages the player, although the
  mole was tapped twice (`StaleRefLeavesOlderAttack`).
- `--state.time` (src/screens/home-screen.tsx:99) decrements the current
  state object in place. After mount and after every `reset`, that object is
  the module constant `DEFAULT_STATE` itself. So the first countdown tick
  lowers `DEFAULT_STATE.time` for good. Where handlers read the current state
  object, as they do in this model (see the line on stale closures under
  "## Left out"), each later `reset` starts the countdown one second shorter:
  29 seconds, then 28 (`ResetLosesTimeScenario`). In the program the countdown
  interval set up at mount may keep a closure whose `state` is `DEFAULT_STATE`;
  its ticks would then lower `DEFAULT_STATE.time` more than once.
  The model keeps that field as `defaultStateTime`. `stateIsDefault` says
  whether `state` is still that object; every other `setState` makes a copy.
- Resetting at a level other than 1 calls `setupTicks` twice. One interval
  pair then keeps running, and no handler can reach it, so after a later pause
  a spawn and a countdown timer still run (`ResetLeaksTimersScenario`).

## Model

| member | source | states |
|---|---|---|
| `MoleEntity.PopEffectFires` | src/components/Mole.tsx:16-20 | the `molePop` effect pops for a changed, truthy prop and for no other; an unchanged prop never pops |
| `MoleEntity.PopStep` | src/components/Mole.tsx:42-86 | `pop` leaves the mole up, not whacked, not attacking, with no signal; `isFeisty` is the feisty roll; `isHealing` is the healing roll only when not feisty and otherwise unchanged; the heal branch is taken iff the healing roll is set; the appear branch carries `isFeisty` from before the pop; pending timeouts stay |
| `MoleEntity.AnimationFinishedStep` | src/components/Mole.tsx:61-165 | with nothing in flight nothing happens; hide and faint end the spawn (`popping` false, exactly one `onFinishPopping(index)`); every other finish emits nothing and keeps `popping`; heal appends the hide timeout; appear appends the attack timeout iff the captured `isFeisty` was set and the hide timeout otherwise |
| `MoleEntity.AnimationFinishedContinues` | src/components/Mole.tsx:65-159 | heal and appear store their timeout in the ref; attack goes on with hide and dizzy with faint; every other finish leaves the timeouts and the ref alone |
| `MoleEntity.TimeoutFiredStep` | src/components/Mole.tsx:66-119 | the oldest timeout fires; `onDamage` is emitted iff it is the attack timeout, then alone and together with `isAttacking` set, which makes the mole untappable; the attack timeout plays attack and the others hide; the ref's timeout has fired iff it was the only one pending; `isFeisty`, `isHealing`, `isPopping` and `isWhacked` stay |
| `MoleEntity.WhackStep` | src/components/Mole.tsx:129-165 | a tap does nothing unless popping, not whacked and not attacking; otherwise it cancels the newest pending timeout iff the ref's timeout is still pending and nothing otherwise, sets whacked, clears feisty, plays dizzy, emits `onScore` exactly once, `onHeal` at most once and iff `isHealing`, nothing else, and never `onDamage` |
| `MoleEntity.StepKeepsRefTracked` | src/components/Mole.tsx:14-138 | while the ref's timeout is pending some timeout is pending; this holds initially and after every event |
| `MoleEntity.StaleRefLeavesOlderAttack` | src/components/Mole.tsx:87-89 | a feisty mole popped three times, tapped after the second and the third pop, still attacks: two `onScore`, then `onDamage` last, with the mole both whacked and attacking |
| `MoleEntity.DoubleSpawnArmsTwo` | src/components/Mole.tsx:82-119 | the first half of `StaleRefLeavesOlderAttack`: two spawns of a mole that was feisty, each finishing "appear", leave an attack timeout and then a hide timeout pending, with the ref on the hide timeout |
| `MoleEntity.TwoTapsAfterDoubleSpawn` | src/components/Mole.tsx:136-138 | with an attack and a hide timeout pending, tap, pop, tap and a timeout give two points and then damage: the second tap clears nothing |
| `MoleEntity.PopFromRestStartsCycle` | src/components/Mole.tsx:42-58 | a pop from rest starts a spawn in which nothing has been emitted yet |
| `MoleEntity.AnimationFinishedKeepsCycle` | src/components/Mole.tsx:61-124 | an animation finish keeps the spawn invariant `InCycle` |
| `MoleEntity.TimeoutFiredKeepsCycle` | src/components/Mole.tsx:87-119 | a timeout firing keeps the spawn invariant |
| `MoleEntity.WhackKeepsCycle` | src/components/Mole.tsx:129-165 | a tap keeps the spawn invariant |
| `MoleEntity.StepKeepsCycle` | src/components/Mole.tsx:61-165 | every event other than a new pop keeps the spawn invariant |
| `MoleEntity.RunKeepsCycle` | src/components/Mole.tsx:42-165 | any run of events without a new pop keeps the spawn invariant |
| `MoleEntity.SpawnCycle` | src/components/Mole.tsx:42-165 | after one pop from rest and any later events short of another pop: `onFinishPopping(index)` has come once iff the mole is down and never twice; `onDamage` and `onScore` together at most once; `onHeal` only with `onScore`; damage means attacking and not whacked; while up, a continuation is still pending |
| `MoleEntity.AttackingIgnoresTaps` | src/components/Mole.tsx:87-90 | once attacking, no run of events short of a new pop scores or heals, and the mole stays attacking |
| `MoleEntity.Completion` | src/components/Mole.tsx:61-124 | the events that finish a spawn without taps: at most four, none of them a pop |
| `MoleEntity.CompletionUnfolds` | src/components/Mole.tsx:61-124 | while the mole is up, the completion starts with an event and continues with the completion of the resulting state |
| `MoleEntity.CompletionEndsSpawn` | src/components/Mole.tsx:71-161 | from any point of a spawn, the completion brings the mole to rest, so every spawn can terminate |
| `MoleEntity.Mole.constructor` | src/components/Mole.tsx:7-14 | a new mole has all five flags false and nothing pending |
| `MoleEntity.Mole.Pop` | src/components/Mole.tsx:42-125 | the in-place `pop` produces exactly `PopStep`'s state and no signal |
| `MoleEntity.Mole.AnimationFinished` | src/components/Mole.tsx:61-165 | the in-place finish callbacks produce exactly `AnimationFinishedStep`'s state and signals |
| `MoleEntity.Mole.TimeoutFired` | src/components/Mole.tsx:66-119 | the in-place timeout bodies produce exactly `TimeoutFiredStep`'s state and signals |
| `MoleEntity.Mole.Whack` | src/components/Mole.tsx:129-170 | the in-place `whack` produces exactly `WhackStep`'s state and signals |
| `HomeScreen.SpawnInterval` | src/screens/home-screen.tsx:57-63 | the spawn period is never below 350 ms, at most 700 ms from level 1 on, 750 - 50 * level up to level 8, and 350 exactly from level 8 |
| `HomeScreen.SpawnIntervalNonIncreasing` | src/screens/home-screen.tsx:59-63 | a higher level never has a longer spawn period |
| `HomeScreen.RandomBetween` | src/screens/home-screen.tsx:140-149 | the result lies in [min, max] and is min plus the draw |
| `HomeScreen.RandomBetweenOnto` | src/screens/home-screen.tsx:141 | every value of [min, max] can be drawn |
| `HomeScreen.GridIndex` | src/screens/home-screen.tsx:278-282 | `rowIdx * 3 + colIdx` lies in [0, 12) and gives back the row and the column |
| `HomeScreen.GridIndexBijective` | src/screens/home-screen.tsx:278-282 | distinct cells get distinct slots, and every slot in [0, 12) is some cell's |
| `HomeScreen.DamagedHealth` | src/screens/home-screen.tsx:171 | damage is lethal (at most 0) iff health is at most 16; negative iff health is in [10, 16); lowers any positive health |
| `HomeScreen.HealedHealth` | src/screens/home-screen.tsx:197 | a heal reaches 100 iff health is at least 84; exceeds 100 iff health is in (84, 90]; raises any health below 100 |
| `HomeScreen.HealthLevelsClosed` | src/screens/home-screen.tsx:22-197 | the health levels {0, 4, 16, 20, ..., 96, 100} contain the starting 100 and are closed under damage and heals |
| `HomeScreen.MolePopProp` | src/screens/home-screen.tsx:292 | a mole's `molePop` prop is its own index exactly when the screen's `molePop` selects it, and null otherwise |
| `HomeScreen.PopsMole` | src/screens/home-screen.tsx:292 | changing `molePop` pops a mole iff it is newly selected and not mole 0 |
| `HomeScreen.IsPoppingProperty` | src/screens/home-screen.tsx:78-80 | `molesRef[i]?.isPopping` is never true |
| `HomeScreen.Controller.constructor` | src/screens/home-screen.tsx:25-54 | mounting stores the twelve handles in slots 0..11, then resets: the state is the `DEFAULT_STATE` object with time 30, nothing popping, one interval pair running at 700 ms, none orphaned |
| `HomeScreen.Controller.SetupTicks` | src/screens/home-screen.tsx:57-67 | a new pair runs at the level's spawn period; the previously stored pair, if running, becomes orphaned; the running pairs grow by exactly one |
| `HomeScreen.Controller.Reset` | src/screens/home-screen.tsx:50-54 | the state becomes the `DEFAULT_STATE` object, with whatever time is left in it (at most 30); nothing popping; timers at the level-1 period; the orphans gain the old stored pair's period when it was running, then the level-1 period 700 when the level was not 1 |
| `HomeScreen.Controller.PopRandomMole` | src/screens/home-screen.tsx:69-83 | the drawn slot in [0, 11] is always selected: neither guard ever blocks |
| `HomeScreen.Controller.TimerTick` | src/screens/home-screen.tsx:86-102 | at time 0 the stored pair stops and `cleared` is set with time left at 0; otherwise time drops by exactly 1, and `DEFAULT_STATE.time` with it iff the state was that object; time is never negative (`Valid`) |
| `HomeScreen.Controller.Pause` | src/screens/home-screen.tsx:105-113 | the stored pair stops and `paused` is set; only orphaned pairs still run |
| `HomeScreen.Controller.Resume` | src/screens/home-screen.tsx:116-124 | `paused` is cleared and a new pair runs at the level's period; nothing else in the state changes |
| `HomeScreen.Controller.NextLevel` | src/screens/home-screen.tsx:127-137 | level + 1, `cleared` and `gameover` off, time 30, nothing popping, timers at the new level's period; score, health and `paused` unchanged |
| `HomeScreen.Controller.OnFinishPopping` | src/screens/home-screen.tsx:151-153 | the popping count drops by one and stays negative |
| `HomeScreen.Controller.OnScore` | src/screens/home-screen.tsx:156-161 | score + 1, nothing else |
| `HomeScreen.Controller.GameOver` | src/screens/home-screen.tsx:185-193 | the stored pair stops and `gameover` is set, nothing else |
| `HomeScreen.Controller.OnDamage` | src/screens/home-screen.tsx:164-182 | nothing changes (state or timers) when cleared, game over or paused; otherwise health becomes `DamagedHealth`, and `gameover` is set and the stored pair stopped iff the new health is at most 0; the health invariant is kept |
| `HomeScreen.Controller.OnHeal` | src/screens/home-screen.tsx:196-202 | health becomes `HealedHealth` whatever the flags, nothing else changes, the health invariant is kept |
| `HomeScreen.Handle` | src/screens/home-screen.tsx:151-202 | the state after one callback: `onScore` adds a point, `onHeal` gives `HealedHealth`, unblocked `onDamage` gives `DamagedHealth` and game over iff it is at most 0, blocked damage changes nothing; level, time, `cleared` and `paused` never change; game over stays; health levels are kept |
| `HomeScreen.HandleAll` | src/screens/home-screen.tsx:151-202 | callbacks handled in order: one point per `onScore`; without `onDamage` the game cannot end; level, time, `cleared`, `paused`, game over and the health levels are kept |
| `HomeScreen.HandleAllSnoc` | src/screens/home-screen.tsx:151-202 | handling one more callback is one more `Handle` step on the fold, one more count exactly when it is `onFinishPopping`, and keeps the state object exactly when the fold so far did and this callback does not replace it |
| `HomeScreen.KeepsObject` | src/screens/home-screen.tsx:151-202 | callbacks none of which replaces the state object (`onFinishPopping`, or `onDamage` while blocked) leave the state unchanged and contain no `onScore` or `onHeal` |
| `HomeScreen.Controller.DeliverNext` | src/screens/home-screen.tsx:291-295 | handling callback `i` after the ones before it extends every part of `Delivered` (state, count, timers, state object) by that callback |
| `HomeScreen.Finishes` | src/screens/home-screen.tsx:151-153 | the number of `onFinishPopping` callbacks: at most their count, and 0 iff there is none |
| `HomeScreen.Controller.Deliver` | src/screens/home-screen.tsx:291-295 | a mole's callback reaches its handler: the state becomes `Handle` of it; only `onFinishPopping` lowers the count; the stored pair stops iff this callback ended the game; the state is still the `DEFAULT_STATE` object iff it was and the callback does not replace it |
| `HomeScreen.Controller.DeliverAll` | src/screens/home-screen.tsx:291-295 | callbacks handled in order: the state becomes `HandleAll` of them; the count drops by the number of `onFinishPopping`; the stored pair stops iff they ended the game; the state is still the `DEFAULT_STATE` object iff it was and `KeepsObject` holds |
| `Game.Board.constructor` | src/screens/home-screen.tsx:278-296 | twelve fresh moles at rest with indices 0..11 and a freshly mounted screen: the `DEFAULT_STATE` object with 30 seconds, nothing popping, one pair at 700 ms |
| `Game.Board.SpawnTick` | src/screens/home-screen.tsx:75-82 | the drawn slot is selected, and that mole pops with the given rolls iff `PopsMole` holds, otherwise it is untouched |
| `Game.Board.CountdownTick` | src/screens/home-screen.tsx:86-102 | a countdown tick of a running pair takes one second off and keeps the pair running, or at time 0 stops the stored pair and marks the level cleared; `DEFAULT_STATE`'s time drops by one exactly on a tick above 0 right after a reset; afterwards the state is a copy |
| `Game.Board.Tap` | src/components/Mole.tsx:146-150 | a tap scores exactly one point iff the mole was tappable, heals to `HealedHealth` iff it was also healing, and changes nothing else in the game: timers and popping count stay; the state object is replaced iff the mole was tappable |
| `Game.Board.AnimationFinished` | src/components/Mole.tsx:97-99 | the popping count drops by one iff the finished animation was hide or faint; nothing else of the screen changes |
| `Game.Board.TimeoutFired` | src/components/Mole.tsx:87-90 | an attack timeout applies `onDamage`'s rule to the screen; any other timeout leaves the game state alone; a lethal attack stops the stored pair; the state object is replaced iff an attack was not blocked |
| `Game.Board.UnwhackedSpawn` | src/components/Mole.tsx:80-124 | an untapped, non-healing spawn ends at rest with one `onFinishPopping`, and damages iff `isFeisty` was set before it, whatever this spawn's feisty roll; the mole rests attacking iff it attacked, not whacked and with no ref pending; a lethal attack stops the stored pair; the state object is replaced iff an attack was not blocked |
| `Game.FeistyMoleScenario` | src/components/Mole.tsx:86 | a fresh mole's first feisty spawn leaves health at 100; its second takes it to 84 |
| `Game.ResetLeaksTimersScenario` | src/screens/home-screen.tsx:39-67 | clear level 1, go to level 2, pause, reset, pause: one interval pair still runs |
| `Game.ResetLosesTimeScenario` | src/screens/home-screen.tsx:14-102 | after one tick and a reset the countdown restarts at 29; after another tick and reset, at 28 |

## Left out

- Rendering, styles, images and `healthBarWidth` (src/screens/home-screen.tsx:206-212): layout in floating point, not logic.
- The overlay panels `Clear`, `GameOver` and `Pause`: they only forward `onReset`, `onNextLevel` and `onResume`, which are `Reset`, `NextLevel` and `Resume` here. The `Pause` panel component is not part of this model. `src/constants/constants.ts` holds screen sizes only.
- `Math.random`: the slot draw and the two mole rolls are parameters. The draw lies in [0, 11]. The feisty roll stands for `Math.random() < 0.4` and the healing roll for `Math.random() < 0.05`, as booleans; the probabilities are not modelled.
- Wall-clock time: `setInterval` and `setTimeout` periods are not simulated. Timer firings are events, and `tickSpeed`/`orphans` record the spawn periods only.
- The `rn-sprite-sheet` player, its frame lists and frame rates (src/components/Mole.tsx:174-188): an animation is a name plus its finish callback, under the replacement assumption stated above.
- The `playAnimation` handle (src/components/Mole.tsx:24-35): nothing in the game calls it. Only its lack of an `isPopping` property matters, and `IsPoppingProperty` models that.
- React batching and stale closures, except the `isFeisty` captured by `pop`. Handlers read the current fields. For example, `onDamage` inside a mole's timeout reads the current health, not the health of the render that created the closure. `setupTicks` in `reset` reads the reset level. The in-place `--state.time` writes into the current state object, as described above.
- Tap events on the board go to one slot at a time. Moles interleave arbitrarily through the `Board` events; no fairness or timing between moles is modelled.

=== FILE: game.dfy ===
/**
 * The screen with its twelve moles (src/screens/home-screen.tsx:278-296):
 * each mole gets its slot as `index`, its `molePop` prop from the screen's
 * `molePop`, and the screen's handlers as callbacks. Every event reaches one
 * mole or the countdown, and the callbacks a mole makes are handled in order.
 */
module Game {
  import opened Opt
  import opened MoleEntity
  import opened HomeScreen

  class Board {
    const home: Controller
    const moles: seq<Mole>

    ghost predicate Valid()
      reads this, home
    {
      |moles| == SLOTS && (forall i :: 0 <= i < SLOTS ==> moles[i].index == i) && home.Valid()
    }

    constructor ()
      ensures Valid() && fresh(home)
      ensures home.state == DEFAULT_STATE && home.molesPopping == 0 && home.molePop == None
      ensures home.ticking && home.orphans == []
      ensures home.stateIsDefault && home.defaultStateTime == DEFAULT_TIME && home.tickSpeed == 700
      ensures forall i :: 0 <= i < SLOTS ==> fresh(moles[i]) && moles[i].State() == Initial
    {
      var ms: seq<Mole> := [];
      var i := 0;
      while i < SLOTS
        invariant 0 <= i <= SLOTS && |ms| == i
        invariant forall j :: 0 <= j < i ==> fresh(ms[j]) && ms[j].index == j && ms[j].State() == Initial
      {
        var m := new Mole(i);
        ms := ms + [m];
        i := i + 1;
      }
      moles := ms;
      home := new Controller();
    }

    /**
     * A tick of a running spawn timer with the slot it draws and the two rolls
     * the selected mole would make: the slot is always selected, and that mole
     * pops exactly when `PopsMole` says so (it was not the previous selection
     * and it is not mole 0).
     */
    method SpawnTick(draw: int, feistyRoll: bool, healingRoll: bool)
      requires Valid() && home.LivePairs() > 0 && 0 <= draw < SLOTS
      modifies home`molePop, moles[draw]
      ensures Valid()
      ensures home.molePop == Some(draw)
      ensures PopsMole(old(home.molePop), Some(draw), draw) ==>
        moles[draw].State() == PopStep(old(moles[draw].State()), feistyRoll, healingRoll).next
      ensures !PopsMole(old(home.molePop), Some(draw), draw) ==> moles[draw].State() == old(moles[draw].State())
    {
      var previous := home.molePop;
      home.PopRandomMole(draw);
      if PopsMole(previous, home.molePop, draw) {
        var signals := moles[draw].Pop(feistyRoll, healingRoll);
      }
    }

    /**
     * A tick of a running countdown timer: one second off, or the level cleared
     * at 0; the first tick after a reset also takes the second off `DEFAULT_STATE`.
     */
    method CountdownTick()
      requires Valid() && home.LivePairs() > 0
      modifies home`state, home`stateIsDefault, home`defaultStateTime, home`ticking
      ensures Valid()
      ensures old(home.state.time) == 0 ==> !home.ticking && home.state == old(home.state).(cleared := true)
      ensures old(home.state.time) != 0 ==> home.state == old(home.state).(time := old(home.state.time) - 1)
      ensures old(home.state.time) != 0 ==> home.ticking == old(home.ticking)
      ensures home.defaultStateTime ==
                old(home.defaultStateTime) - (if old(home.stateIsDefault) && old(home.state.time) != 0 then 1 else 0)
      ensures !home.stateIsDefault
    {
      home.TimerTick();
    }

    /**
     * A tap on slot `i`: one point exactly when the mole there was tappable,
     * and a heal when it was also healing; nothing else in the game changes.
     */
    method Tap(i: int)
      requires Valid() && 0 <= i < SLOTS
      modifies home`state, home`stateIsDefault, home`ticking, home`molesPopping, moles[i]
      ensures Valid()
      ensures moles[i].State() == WhackStep(old(moles[i].State())).next
      ensures home.state.score == old(home.state.score) + (if Tappable(old(moles[i].State())) then 1 else 0)
      ensures home.state.gameover == old(home.state.gameover)
      ensures var m := old(moles[i].State());
              var h := old(home.state.health);
              home.state == old(home.state).(score := old(home.state.score) + (if Tappable(m) then 1 else 0),
                                             health := if Tappable(m) && m.healing then HealedHealth(h) else h)
      ensures home.ticking == old(home.ticking) && home.molesPopping == old(home.molesPopping)
      ensures home.stateIsDefault == (old(home.stateIsDefault) && !Tappable(old(moles[i].State())))
    {
      var s := home.state;
      var signals := moles[i].Whack();
      assert [OnScore][..0] == [] && [OnScore, OnHeal][..1] == [OnScore];
      assert signals == [] || HandleAll(s, signals) == Handle(s, OnScore) ||
             HandleAll(s, signals) == Handle(Handle(s, OnScore), OnHeal);
      assert signals == [] || !KeepsObject(s, signals);
      home.DeliverAll(signals);
    }

    /** The animation of slot `i` finishes: one mole fewer popping when it was "hide" or "faint". */
    method AnimationFinished(i: int)
      requires Valid() && 0 <= i < SLOTS
      modifies home`molesPopping, moles[i]
      ensures Valid()
      ensures moles[i].State() == AnimationFinishedStep(old(moles[i].State()), i).next
      ensures home.state == old(home.state) && home.ticking == old(home.ticking)
      ensures home.molesPopping == old(home.molesPopping) - (if old(moles[i].clip) in {Hide, Faint} then 1 else 0)
    {
      var signals := moles[i].AnimationFinished();
      DeliverFinish(signals, i);
    }

    /** The oldest timeout of slot `i` fires: an attack damages the player as `onDamage` says. */
    method TimeoutFired(i: int)
      requires Valid() && 0 <= i < SLOTS
      modifies home`state, home`stateIsDefault, home`ticking, home`molesPopping, moles[i]
      ensures Valid()
      ensures moles[i].State() == TimeoutFiredStep(old(moles[i].State())).next
      ensures home.state.score == old(home.state.score) && home.molesPopping == old(home.molesPopping)
      ensures var attack := old(moles[i].timeouts) != [] && old(moles[i].timeouts)[0] == AttackAfterAppear;
              var blocked := old(home.state.cleared || home.state.gameover || home.state.paused);
              var target := DamagedHealth(old(home.state.health));
              (attack && !blocked ==> home.state == old(home.state).(health := target, gameover := target <= 0)) &&
              (!attack || blocked ==> home.state == old(home.state)) &&
              home.stateIsDefault == (old(home.stateIsDefault) && !(attack && !blocked))
      ensures home.state.gameover == old(home.state.gameover) ==> home.ticking == old(home.ticking)
      ensures !old(home.state.gameover) && home.state.gameover ==> !home.ticking
    {
      var signals := moles[i].TimeoutFired();
      if signals == [OnDamage] {
        home.OnDamage();
      }
    }

    /** Hands the (at most one) `onFinishPopping` of an animation end to the screen. */
    method DeliverFinish(signals: seq<Signal>, i: int)
      requires Valid() && (signals == [] || signals == [OnFinishPopping(i)])
      modifies home`molesPopping
      ensures Valid()
      ensures home.molesPopping == old(home.molesPopping) - |signals|
    {
      if signals != [] {
        home.OnFinishPopping(i);
      }
    }

    /**
     * A whole spawn of mole `i` that the player does not tap and that does
     * not heal: it ends with the mole down and one `onFinishPopping`, and it
     * damages the player exactly when `isFeisty` was set before the spawn,
     * whatever the feisty roll of this spawn.
     */
    method UnwhackedSpawn(i: int, feistyRoll: bool)
      requires Valid() && home.LivePairs() > 0 && 0 < i < SLOTS
      requires home.molePop != Some(i) && AtRest(moles[i].State())
      modifies home`molePop, home`state, home`stateIsDefault, home`ticking, home`molesPopping, moles[i]
      ensures Valid()
      ensures AtRest(moles[i].State()) && moles[i].isFeisty == feistyRoll && home.molePop == Some(i)
      ensures moles[i].isAttacking == old(moles[i].isFeisty) && !moles[i].isWhacked && !moles[i].refPending
      ensures home.stateIsDefault == (old(home.stateIsDefault) &&
                                      !(old(moles[i].isFeisty) && !Blocked(old(home.state))))
      ensures home.molesPopping == old(home.molesPopping) - 1
      ensures var attacked := old(moles[i].isFeisty);
              var blocked := old(home.state.cleared || home.state.gameover || home.state.paused);
              var target := DamagedHealth(old(home.state.health));
              home.state == if attacked && !blocked then old(home.state).(health := target, gameover := target <= 0)
                            else old(home.state)
      ensures home.state.gameover == old(home.state.gameover) ==> home.ticking == old(home.ticking)
      ensures !old(home.state.gameover) && home.state.gameover ==> !home.ticking
    {
      var attacked := moles[i].isFeisty;
      SpawnTick(i, feistyRoll, false);      // appear, remembering `attacked`
      AnimationFinished(i);                 // arms the attack or the hide timeout
      TimeoutFired(i);                      // attack (onDamage) or hide
      if attacked {
        AnimationFinished(i);               // attack done, hide
      }
      AnimationFinished(i);                 // down: onFinishPopping(i)
    }
  }

  /**
   * A feisty spawn on a fresh mole does not attack, because the choice reads
   * `isFeisty` from before the spawn; the next feisty spawn of the same mole
   * does, and takes 16 health off.
   */
  method FeistyMoleScenario() returns (healthAfterFirst: int, healthAfterSecond: int, popping: int)
    ensures healthAfterFirst == 100 && healthAfterSecond == 84 && popping == -2
  {
    var board := new Board();
    board.UnwhackedSpawn(5, true);
    healthAfterFirst := board.home.state.health;
    board.SpawnTick(3, false, false);       // another mole, so mole 5's prop changes again
    board.UnwhackedSpawn(5, true);
    healthAfterSecond := board.home.state.health;
    popping := board.home.molesPopping;
  }

  /**
   * Clearing level 1, going to level 2, pausing and resetting from the pause
   * panel leaves one interval pair that no handler can stop: after the next
   * pause a spawn and a countdown timer still run.
   */
  method ResetLeaksTimersScenario() returns (runningAfterPause: nat, paused: bool)
    ensures runningAfterPause == 1 && paused
  {
    var home := new Controller();
    var ticks := 0;
    while ticks <= DEFAULT_TIME
      invariant 0 <= ticks <= DEFAULT_TIME + 1 && home.Valid()
      invariant home.state == DEFAULT_STATE.(time := if ticks <= DEFAULT_TIME then DEFAULT_TIME - ticks else 0,
                                              cleared := ticks > DEFAULT_TIME)
      invariant home.ticking == (ticks <= DEFAULT_TIME) && home.orphans == []
      invariant home.stateIsDefault == (ticks == 0)
    {
      home.TimerTick();
      ticks := ticks + 1;
    }
    home.NextLevel();
    home.Pause();
    home.Reset();
    home.Pause();
    runningAfterPause := home.LivePairs();
    paused := home.state.paused;
  }

  /**
   * A reset restores the `DEFAULT_STATE` object, and the first countdown tick
   * after mount and after every reset has lowered that object's time: the
   * second game starts with 29 seconds, the third with 28.
   */
  method ResetLosesTimeScenario() returns (timeAfterFirstReset: int, timeAfterSecondReset: int)
    ensures timeAfterFirstReset == DEFAULT_TIME - 1 && timeAfterSecondReset == DEFAULT_TIME - 2
  {
    var home := new Controller();
    home.TimerTick();
    home.Reset();
    timeAfterFirstReset := home.state.time;
    home.TimerTick();
    home.Reset();
    timeAfterSecondReset := home.state.time;
  }
}

=== FILE: home_screen.dfy ===
/**
 * The game screen (src/screens/home-screen.tsx): one game-state record, the
 * count of moles popping, the index of the mole to pop, two repeating timers,
 * and the handlers the timers, the overlay panels and the moles call.
 *
 * Handlers run one at a time and each reads the fields as they are when it
 * runs. The effect that re-arms the timers whenever `state.level` changes is
 * folded into the handlers that change the level (`NextLevel`, `Reset`).
 */
module HomeScreen {
  import opened Opt
  import MoleEntity

  const DEFAULT_TIME: int := 30
  const MAX_HEALTH: int := 100
  const ROWS: int := 4
  const COLUMNS: int := 3
  const SLOTS: int := 12

  /**
   * The record every handler replaces through `setState`. `DEFAULT_STATE` is
   * its value when the program starts; the module-level object it names is
   * shared, and its `time` can be lowered later (see `Controller.defaultStateTime`).
   */
  datatype GameState = GameState(
    level: int,
    score: int,
    time: int,
    cleared: bool,
    paused: bool,
    gameover: bool,
    health: int)

  const DEFAULT_STATE: GameState := GameState(1, 0, DEFAULT_TIME, false, false, false, MAX_HEALTH)

  /**
   * The period in milliseconds of the spawn timer at a level: 750 - 50 * level,
   * but never below 350 ms.
   */
  function SpawnInterval(level: int): (ms: int)
    ensures ms >= 350
    ensures level >= 1 ==> ms <= 700
    ensures ms == 350 <==> level >= 8
    ensures level <= 8 ==> ms == 750 - 50 * level
  {
    var speed := 750 - level * 50;
    if speed < 350 then 350 else speed
  }

  /** Later levels never spawn more slowly. */
  lemma SpawnIntervalNonIncreasing(lower: int, higher: int)
    requires lower <= higher
    ensures SpawnInterval(higher) <= SpawnInterval(lower)
  {
  }

  /**
   * `randomBetween(min, max)`: `draw` stands for `Math.floor(Math.random() * (max - min + 1))`,
   * an integer in [0, max - min]. The result is in [min, max], and every value there can come out.
   */
  function RandomBetween(min: int, max: int, draw: int): (k: int)
    requires min <= max && 0 <= draw <= max - min
    ensures min <= k <= max
    ensures k - min == draw
  {
    draw + min
  }

  /** Every value of the range can be drawn. */
  lemma RandomBetweenOnto(min: int, max: int, k: int)
    requires min <= k <= max
    ensures RandomBetween(min, max, k - min) == k
  {
  }

  /** The slot of the cell in row `row` and column `col` of the 4 x 3 grid. */
  function GridIndex(row: int, col: int): (idx: int)
    requires 0 <= row < ROWS && 0 <= col < COLUMNS
    ensures 0 <= idx < SLOTS
    ensures idx / COLUMNS == row && idx % COLUMNS == col
  {
    row * 3 + col
  }

  /** The twelve cells get the twelve slots 0 .. 11, each exactly once. */
  lemma GridIndexBijective()
    ensures forall r1, c1, r2, c2 ::
      (0 <= r1 < ROWS && 0 <= c1 < COLUMNS && 0 <= r2 < ROWS && 0 <= c2 < COLUMNS &&
       GridIndex(r1, c1) == GridIndex(r2, c2)) ==> r1 == r2 && c1 == c2
    ensures forall k :: 0 <= k < SLOTS ==> 0 <= k / COLUMNS < ROWS && GridIndex(k / COLUMNS, k % COLUMNS) == k
  {
  }

  /**
   * `onDamage`'s new health: 0 when health - 10 < 0, otherwise health - 16.
   * It is lethal (at most 0) exactly from health 16 down; for health in
   * [10, 16) it is negative.
   */
  function DamagedHealth(health: int): (target: int)
    ensures target <= 0 <==> health <= 16
    ensures target < 0 <==> 10 <= health < 16
    ensures health > 0 ==> target < health
  {
    if health - 10 < 0 then 0 else health - 16
  }

  /**
   * `onHeal`'s new health: 100 when health + 10 > 100, otherwise health + 16.
   * For health in (84, 90] it overshoots 100.
   */
  function HealedHealth(health: int): (target: int)
    ensures target >= MAX_HEALTH <==> health >= 84
    ensures target > MAX_HEALTH <==> 84 < health <= 90
    ensures health < MAX_HEALTH ==> target > health
  {
    if health + 10 > 100 then 100 else health + 16
  }

  /**
   * The health values reachable from 100 by damage and heals:
   * 0, 4, 16, 20, ..., 96, 100, that is, in [0, 100] and 0 or 4 modulo 16.
   */
  ghost predicate HealthLevel(h: int) {
    0 <= h <= MAX_HEALTH && (h % 16 == 0 || h % 16 == 4)
  }

  /** The health levels contain the starting health and are closed under damage and heals. */
  lemma HealthLevelsClosed(h: int)
    requires HealthLevel(h)
    ensures HealthLevel(DEFAULT_STATE.health)
    ensures HealthLevel(DamagedHealth(h)) && HealthLevel(HealedHealth(h))
  {
  }

  /** The prop `molePop` each mole receives: the index when it is this mole's, otherwise `null`. */
  function MolePopProp(molePop: Option<int>, moleIdx: int): (p: Option<int>)
    ensures p.Some? ==> p.value == moleIdx
    ensures p.Some? <==> molePop == Some(moleIdx)
  {
    if molePop == Some(moleIdx) then molePop else None
  }

  /**
   * Whether changing `molePop` from `prev` to `next` makes mole `moleIdx` pop:
   * exactly when the mole is newly selected, and never mole 0 (its prop `0` is falsy).
   */
  function PopsMole(prev: Option<int>, next: Option<int>, moleIdx: int): (fires: bool)
    ensures fires <==> next == Some(moleIdx) && prev != next && moleIdx != 0
  {
    MoleEntity.PopEffectFires(MolePopProp(prev, moleIdx), MolePopProp(next, moleIdx))
  }

  /** `onDamage` returns at once while the level is cleared, the game is over or the game is paused. */
  predicate Blocked(s: GameState) {
    s.cleared || s.gameover || s.paused
  }

  /**
   * The game state after the screen handles one callback of a mole: `onScore`
   * adds a point, `onHeal` heals whatever the flags, `onDamage` damages unless
   * blocked and ends the game when the new health is at most 0, and
   * `onFinishPopping` leaves the state alone. Level, time, `cleared` and
   * `paused` never change, a finished game stays finished, and the health
   * levels are kept.
   */
  function Handle(s: GameState, signal: MoleEntity.Signal): (t: GameState)
    ensures t.level == s.level && t.time == s.time && t.cleared == s.cleared && t.paused == s.paused
    ensures t.score == s.score + (if signal.OnScore? then 1 else 0)
    ensures signal.OnHeal? ==> t.health == HealedHealth(s.health) && t.gameover == s.gameover
    ensures signal.OnDamage? && !Blocked(s) ==> t.health == DamagedHealth(s.health) && t.gameover == (t.health <= 0)
    ensures signal.OnDamage? && Blocked(s) ==> t == s
    ensures signal.OnScore? || signal.OnFinishPopping? ==> t.health == s.health && t.gameover == s.gameover
    ensures s.gameover ==> t.gameover
    ensures HealthLevel(s.health) ==> HealthLevel(t.health)
  {
    match signal
    case OnScore => s.(score := s.score + 1)
    case OnHeal => s.(health := HealedHealth(s.health))
    case OnDamage =>
      if Blocked(s) then s
      else s.(health := DamagedHealth(s.health), gameover := DamagedHealth(s.health) <= 0)
    case OnFinishPopping(_) => s
  }

  /**
   * Whether handling `signal` makes a new state object: `onScore` and `onHeal`
   * always copy the state, `onDamage` unless it returns at once.
   */
  predicate Replaces(s: GameState, signal: MoleEntity.Signal) {
    signal.OnScore? || signal.OnHeal? || (signal.OnDamage? && !Blocked(s))
  }

  /**
   * Whether handling the callbacks in order leaves the state object in place:
   * none of them replaces the state current when it is handled. Then the
   * state is unchanged, and no point or heal was among them.
   */
  function KeepsObject(s: GameState, signals: seq<MoleEntity.Signal>): (keeps: bool)
    ensures keeps ==> HandleAll(s, signals) == s
    ensures keeps ==> MoleEntity.OnScore !in signals && MoleEntity.OnHeal !in signals
    decreases |signals|
  {
    if signals == [] then true
    else
      var init := signals[..|signals| - 1];
      var last := signals[|signals| - 1];
      assert signals == init + [last];
      KeepsObject(s, init) && !Replaces(HandleAll(s, init), last)
  }

  /** The game state after the screen handles a mole's callbacks in order. */
  function HandleAll(s: GameState, signals: seq<MoleEntity.Signal>): (t: GameState)
    ensures t.level == s.level && t.time == s.time && t.cleared == s.cleared && t.paused == s.paused
    ensures t.score == s.score + multiset(signals)[MoleEntity.OnScore]
    ensures MoleEntity.OnDamage !in signals ==> t.gameover == s.gameover
    ensures s.gameover ==> t.gameover
    ensures HealthLevel(s.health) ==> HealthLevel(t.health)
    decreases |signals|
  {
    if signals == [] then s
    else
      var init := signals[..|signals| - 1];
      assert signals == init + [signals[|signals| - 1]];
      Handle(HandleAll(s, init), signals[|signals| - 1])
  }

  /** Handling one more callback extends the fold by one `Handle` step and one count. */
  lemma HandleAllSnoc(s: GameState, signals: seq<MoleEntity.Signal>, i: int)
    requires 0 <= i < |signals|
    ensures HandleAll(s, signals[..i + 1]) == Handle(HandleAll(s, signals[..i]), signals[i])
    ensures Finishes(signals[..i + 1]) == Finishes(signals[..i]) + (if signals[i].OnFinishPopping? then 1 else 0)
    ensures KeepsObject(s, signals[..i + 1]) ==
            (KeepsObject(s, signals[..i]) && !Replaces(HandleAll(s, signals[..i]), signals[i]))
  {
    assert signals[..i + 1][..i] == signals[..i];
  }

  /** How many of the callbacks are `onFinishPopping`, whatever mole they name. */
  function Finishes(signals: seq<MoleEntity.Signal>): (n: nat)
    ensures n <= |signals|
    ensures n == 0 <==> forall k :: 0 <= k < |signals| ==> !signals[k].OnFinishPopping?
    decreases |signals|
  {
    if signals == [] then 0
    else Finishes(signals[..|signals| - 1]) + (if signals[|signals| - 1].OnFinishPopping? then 1 else 0)
  }

  /** What `molesRef[i]` holds: the mole's imperative handle, which exposes only `playAnimation`. */
  datatype MoleHandle = PlayAnimationHandle

  /** `molesRef[i]?.isPopping`: a missing handle and a handle without the property both give `undefined`. */
  function IsPoppingProperty(handle: Option<MoleHandle>): (v: Option<bool>)
    ensures v != Some(true)
  {
    match handle
    case None => None
    case Some(PlayAnimationHandle) => None
  }

  class Controller {
    var state: GameState
    var molesPopping: int
    var molePop: Option<int>
    /** `molesRef.current`: the array the refs were meant to go into; nothing writes it. */
    var molesRefCurrent: seq<MoleHandle>
    /** `molesRef[i]`: where the ref callbacks of the cells put each mole's handle. */
    var molesRefSlots: map<int, MoleHandle>
    /** The interval pair in `intervalRef`/`timeIntervalRef` is running. */
    var ticking: bool
    /** The spawn period of that pair. */
    var tickSpeed: int
    /** Spawn periods of running pairs whose handles were overwritten: no handler can stop them. */
    var orphans: seq<int>
    /** `DEFAULT_STATE.time`: the one field of the shared default object that is ever written. */
    var defaultStateTime: int
    /** `state` is the `DEFAULT_STATE` object itself (after mount and after `reset`, until the next `setState`). */
    var stateIsDefault: bool

    ghost predicate Valid()
      reads this
    {
      Consistent() && (ticking ==> tickSpeed == SpawnInterval(state.level))
    }

    /** `Valid` except that the stored pair's period may still be the one of an earlier level. */
    ghost predicate Consistent()
      reads this
    {
      1 <= state.level && 0 <= state.score && 0 <= state.time <= DEFAULT_TIME &&
      HealthLevel(state.health) &&
      molesPopping <= 0 &&
      molesRefCurrent == [] &&
      (forall i :: i in molesRefSlots ==> 0 <= i < SLOTS) &&
      (molePop.Some? ==> 0 <= molePop.value < SLOTS) &&
      (ticking ==> 350 <= tickSpeed <= 700) &&
      (forall k :: 0 <= k < |orphans| ==> 350 <= orphans[k] <= 700) &&
      0 <= defaultStateTime <= DEFAULT_TIME &&
      (stateIsDefault ==> state == DEFAULT_STATE.(time := defaultStateTime))
    }

    /** Interval pairs still running. */
    function LivePairs(): nat
      reads this
    {
      |orphans| + (if ticking then 1 else 0)
    }

    /**
     * Mounting the screen: the first render stores every cell's handle in
     * `molesRef[GridIndex(row, col)]`, then the mount effect calls `reset`
     * (the level effect skips its first run).
     */
    constructor ()
      ensures Valid()
      ensures state == DEFAULT_STATE && molesPopping == 0 && molePop == None
      ensures stateIsDefault && defaultStateTime == DEFAULT_TIME
      ensures ticking && tickSpeed == 700 && orphans == []
      ensures forall k :: k in molesRefSlots <==> 0 <= k < SLOTS
    {
      state := DEFAULT_STATE;
      defaultStateTime := DEFAULT_TIME;
      stateIsDefault := true;
      molesPopping := 0;
      molePop := None;
      molesRefCurrent := [];
      var slots: map<int, MoleHandle> := map[];
      var row := 0;
      while row < ROWS
        invariant 0 <= row <= ROWS
        invariant forall k :: k in slots <==> 0 <= k < COLUMNS * row
      {
        var col := 0;
        while col < COLUMNS
          invariant 0 <= col <= COLUMNS
          invariant forall k :: k in slots <==> 0 <= k < COLUMNS * row + col
        {
          slots := slots[GridIndex(row, col) := PlayAnimationHandle];
          col := col + 1;
        }
        row := row + 1;
      }
      molesRefSlots := slots;
      ticking := false;
      tickSpeed := 0;
      orphans := [];
      new;
      Reset();
    }

    /**
     * `setupTicks`: starts a spawn timer at `SpawnInterval(level)` and a 1 s
     * countdown timer and stores their handles, without clearing the pair
     * stored before; if that pair was running it is now out of reach.
     */
    method SetupTicks()
      requires Consistent()
      modifies this`ticking, this`tickSpeed, this`orphans
      ensures Valid()
      ensures ticking && tickSpeed == SpawnInterval(state.level)
      ensures orphans == if old(ticking) then old(orphans) + [old(tickSpeed)] else old(orphans)
      ensures LivePairs() == old(LivePairs()) + 1
    {
      var speed := 750 - state.level * 50;
      if speed < 350 {
        speed := 350;
      }
      if ticking {
        orphans := orphans + [tickSpeed];
      }
      ticking, tickSpeed := true, speed;
    }

    /**
     * `reset`: the state becomes the `DEFAULT_STATE` object, whose time is
     * whatever countdown ticks have left in it, no mole popping, timers set
     * up; when the level was not 1 the level effect sets them up a second time.
     */
    method Reset()
      requires Valid()
      modifies this`state, this`stateIsDefault, this`molesPopping, this`ticking, this`tickSpeed, this`orphans
      ensures Valid()
      ensures state == DEFAULT_STATE.(time := defaultStateTime) && stateIsDefault && molesPopping == 0
      ensures state.time <= DEFAULT_TIME
      ensures ticking && tickSpeed == SpawnInterval(1)
      ensures |orphans| == |old(orphans)| + (if old(ticking) then 1 else 0) + (if old(state.level) != 1 then 1 else 0)
      ensures orphans == old(orphans) + (if old(ticking) then [old(tickSpeed)] else [])
                                      + (if old(state.level) != 1 then [SpawnInterval(1)] else [])
    {
      var levelBefore := state.level;
      state := DEFAULT_STATE.(time := defaultStateTime);
      stateIsDefault := true;
      molesPopping := 0;
      SetupTicks();
      if state.level != levelBefore {
        SetupTicks();
      }
    }

    /**
     * The spawn timer: the two guards (fewer than 12 entries in `molesRef.current`,
     * and a mole that is not popping with fewer than 3 popping) always pass,
     * so the drawn slot is always selected.
     */
    method PopRandomMole(draw: int)
      requires Valid() && 0 <= draw < SLOTS
      modifies this`molePop
      ensures Valid()
      ensures molePop == Some(RandomBetween(0, 11, draw)) && 0 <= molePop.value < SLOTS
    {
      if |molesRefCurrent| >= 12 {
        return;
      }
      var randomIndex := RandomBetween(0, 11, draw);
      var handle := if randomIndex in molesRefSlots then Some(molesRefSlots[randomIndex]) else None;
      if IsPoppingProperty(handle) != Some(true) && molesPopping < 3 {
        molePop := Some(randomIndex);
      }
    }

    /**
     * The countdown timer: at time 0 it clears the stored interval pair and
     * marks the level cleared, leaving the time at 0; otherwise it takes one
     * second off. The decrement `--state.time` writes into the current state
     * object, so when that is `DEFAULT_STATE` the default time drops for good.
     */
    method TimerTick()
      requires Valid()
      modifies this`state, this`stateIsDefault, this`defaultStateTime, this`ticking
      ensures Valid()
      ensures old(state.time) == 0 ==> !ticking && state == old(state).(cleared := true)
      ensures old(state.time) != 0 ==> ticking == old(ticking) && state == old(state).(time := old(state.time) - 1)
      ensures defaultStateTime == old(defaultStateTime) - (if old(stateIsDefault) && old(state.time) != 0 then 1 else 0)
      ensures !stateIsDefault
    {
      if state.time == 0 {
        ticking := false;
        state := state.(cleared := true);
      } else {
        if stateIsDefault {
          defaultStateTime := defaultStateTime - 1;
        }
        state := state.(time := state.time - 1);
      }
      stateIsDefault := false;
    }

    /** `pause`: clears the stored interval pair and sets `paused`. */
    method Pause()
      requires Valid()
      modifies this`state, this`stateIsDefault, this`ticking
      ensures Valid()
      ensures !ticking && state == old(state).(paused := true) && !stateIsDefault
      ensures LivePairs() == |orphans|
    {
      ticking := false;
      state := state.(paused := true);
      stateIsDefault := false;
    }

    /** `resume`: clears `paused` and sets the timers up again. */
    method Resume()
      requires Valid()
      modifies this`state, this`stateIsDefault, this`ticking, this`tickSpeed, this`orphans
      ensures Valid()
      ensures state == old(state).(paused := false) && !stateIsDefault
      ensures ticking && tickSpeed == SpawnInterval(state.level)
      ensures orphans == if old(ticking) then old(orphans) + [old(tickSpeed)] else old(orphans)
    {
      state := state.(paused := false);
      stateIsDefault := false;
      SetupTicks();
    }

    /**
     * `nextLevel`: one level up, `cleared` and `gameover` off, a full
     * countdown, no mole popping; the level effect then sets the timers up
     * at the new level's spawn period. Score, health and `paused` stay.
     */
    method NextLevel()
      requires Valid()
      modifies this`state, this`stateIsDefault, this`molesPopping, this`ticking, this`tickSpeed, this`orphans
      ensures Valid()
      ensures state == old(state).(level := old(state.level) + 1, cleared := false, gameover := false, time := DEFAULT_TIME)
      ensures !stateIsDefault && molesPopping == 0
      ensures ticking && tickSpeed == SpawnInterval(old(state.level) + 1)
      ensures orphans == if old(ticking) then old(orphans) + [old(tickSpeed)] else old(orphans)
    {
      state := state.(level := state.level + 1, cleared := false, gameover := false, time := DEFAULT_TIME);
      stateIsDefault := false;
      molesPopping := 0;
      SetupTicks();
    }

    /** `onFinishPopping`: one mole fewer popping. */
    method OnFinishPopping(index: int)
      requires Valid()
      modifies this`molesPopping
      ensures Valid()
      ensures molesPopping == old(molesPopping) - 1 && molesPopping < 0
    {
      molesPopping := molesPopping - 1;
    }

    /** `onScore`: one point more. */
    method OnScore()
      requires Valid()
      modifies this`state, this`stateIsDefault
      ensures Valid()
      ensures state == old(state).(score := old(state.score) + 1) && !stateIsDefault
    {
      state := state.(score := state.score + 1);
      stateIsDefault := false;
    }

    /** `gameOver`: clears the stored interval pair and sets `gameover`. */
    method GameOver()
      requires Valid()
      modifies this`state, this`stateIsDefault, this`ticking
      ensures Valid()
      ensures !ticking && state == old(state).(gameover := true) && !stateIsDefault
    {
      ticking := false;
      state := state.(gameover := true);
      stateIsDefault := false;
    }

    /**
     * `onDamage`: nothing while cleared, game over or paused. Otherwise the
     * health becomes `DamagedHealth`, and the game is over exactly when that
     * is at most 0.
     */
    method OnDamage()
      requires Valid()
      modifies this`state, this`stateIsDefault, this`ticking
      ensures Valid()
      ensures old(state.cleared || state.gameover || state.paused) ==>
        state == old(state) && ticking == old(ticking) && stateIsDefault == old(stateIsDefault)
      ensures !old(state.cleared || state.gameover || state.paused) ==>
        state.health == DamagedHealth(old(state.health)) &&
        state == old(state).(health := state.health, gameover := state.health <= 0) &&
        ticking == (old(ticking) && state.health > 0) && !stateIsDefault
    {
      if state.cleared || state.gameover || state.paused {
        return;
      }
      var targetHealth := if state.health - 10 < 0 then 0 else state.health - 16;
      HealthLevelsClosed(state.health);
      state := state.(health := targetHealth);
      stateIsDefault := false;
      if targetHealth <= 0 {
        GameOver();
      }
    }

    /** `onHeal`: health becomes `HealedHealth`, whatever the flags. */
    method OnHeal()
      requires Valid()
      modifies this`state, this`stateIsDefault
      ensures Valid()
      ensures state == old(state).(health := HealedHealth(old(state.health))) && !stateIsDefault
    {
      HealthLevelsClosed(state.health);
      var targetHealth := if state.health + 10 > 100 then 100 else state.health + 16;
      state := state.(health := targetHealth);
      stateIsDefault := false;
    }

    /** Hands one callback of a mole to its handler. */
    method Deliver(signal: MoleEntity.Signal)
      requires Valid()
      modifies this`state, this`stateIsDefault, this`ticking, this`molesPopping
      ensures Valid()
      ensures state.score == old(state.score) + (if signal.OnScore? then 1 else 0)
      ensures molesPopping == old(molesPopping) - (if signal.OnFinishPopping? then 1 else 0)
      ensures !signal.OnDamage? ==> ticking == old(ticking) && state.gameover == old(state.gameover)
      ensures signal.OnDamage? || signal.OnHeal? || state.health == old(state.health)
      ensures state == Handle(old(state), signal)
      ensures ticking == (old(ticking) && state.gameover == old(state.gameover))
      ensures signal.OnFinishPopping? || (signal.OnDamage? && Blocked(old(state))) ==> stateIsDefault == old(stateIsDefault)
      ensures signal.OnScore? || signal.OnHeal? || (signal.OnDamage? && !Blocked(old(state))) ==> !stateIsDefault
      ensures stateIsDefault == (old(stateIsDefault) && !Replaces(old(state), signal))
    {
      match signal
      case OnDamage => OnDamage();
      case OnScore => OnScore();
      case OnHeal => OnHeal();
      case OnFinishPopping(index) => OnFinishPopping(index);
    }

    /**
     * The controller is where handling `signals` in order leads from a state
     * `start`, a popping count `popping`, the countdown flag `wasTicking` and
     * the object flag `wasDefault`.
     */
    ghost predicate Delivered(start: GameState, popping: int, wasTicking: bool, wasDefault: bool,
                              signals: seq<MoleEntity.Signal>)
      reads this
    {
      Valid() &&
      state == HandleAll(start, signals) &&
      molesPopping == popping - Finishes(signals) &&
      ticking == (wasTicking && state.gameover == start.gameover) &&
      stateIsDefault == (wasDefault && KeepsObject(start, signals))
    }

    /** Handles callback `i` after the ones before it. */
    method DeliverNext(signals: seq<MoleEntity.Signal>, i: int, ghost start: GameState, ghost popping: int,
                       ghost wasTicking: bool, ghost wasDefault: bool)
      requires 0 <= i < |signals| && Delivered(start, popping, wasTicking, wasDefault, signals[..i])
      modifies this`state, this`stateIsDefault, this`ticking, this`molesPopping
      ensures Delivered(start, popping, wasTicking, wasDefault, signals[..i + 1])
    {
      HandleAllSnoc(start, signals, i);
      Deliver(signals[i]);
    }

    /** Hands a mole's callbacks to their handlers in order. */
    method DeliverAll(signals: seq<MoleEntity.Signal>)
      requires Valid()
      modifies this`state, this`stateIsDefault, this`ticking, this`molesPopping
      ensures Valid()
      ensures state.score == old(state.score) + multiset(signals)[MoleEntity.OnScore]
      ensures molesPopping <= old(molesPopping)
      ensures MoleEntity.OnDamage !in signals ==> ticking == old(ticking) && state.gameover == old(state.gameover)
      ensures state == HandleAll(old(state), signals)
      ensures molesPopping == old(molesPopping) - Finishes(signals)
      ensures ticking == (old(ticking) && state.gameover == old(state.gameover))
      ensures stateIsDefault == (old(stateIsDefault) && KeepsObject(old(state), signals))
    {
      ghost var start, popping, wasTicking, wasDefault := state, molesPopping, ticking, stateIsDefault;
      assert signals[..0] == [];
      var i := 0;
      while i < |signals|
        invariant 0 <= i <= |signals|
        invariant Delivered(start, popping, wasTicking, wasDefault, signals[..i])
      {
        DeliverNext(signals, i, start, popping, wasTicking, wasDefault);
        i := i + 1;
      }
      assert signals[..i] == signals;
    }
  }
}

=== FILE: mole.dfy ===
/**
 * One mole of the 4 x 3 grid (src/components/Mole.tsx).
 *
 * The component keeps five boolean state fields, one pending-timeout slot and a
 * chain of animation-finish callbacks. Here its state is a value, `MoleState`,
 * and each thing that can happen to a mole is a step function returning the
 * next state and the callbacks it makes to the game screen. The class `Mole`
 * at the end updates its fields in place and is proved to follow those steps.
 *
 * Assumption about the sprite player: `play` shows one animation and remembers
 * one finish callback; a new `play` replaces a finish callback that has not
 * fired yet, and a finish callback fires at most once.
 */
module MoleEntity {
  import opened Opt

  /** The callbacks a mole makes on the game screen. */
  datatype Signal = OnDamage | OnScore | OnHeal | OnFinishPopping(index: int)

  /** The animation in flight and so the finish callback the mole is waiting for. */
  datatype Clip =
    | Stopped                          // no finish callback pending
    | Heal                             // "heal", then a timeout that hides
    | Appear(feistyBeforePop: bool)    // "appear"; its callback reads the `isFeisty` captured by `pop`
    | Attack                           // "attack", then "hide"
    | Hide                             // "hide", then the mole is down
    | Dizzy                            // "dizzy", then "faint"
    | Faint                            // "faint", then the mole is down

  /** What a pending 1000 ms timeout will do when it fires. */
  datatype Timeout = HideAfterHeal | AttackAfterAppear | HideAfterAppear

  /**
   * The five state fields, the animation in flight, the pending timeouts
   * oldest first (every delay is 1000 ms, so they fire in the order set), and
   * whether the timeout `actionTimeoutRef` holds is still pending. The ref
   * always holds the timeout set last, so while that one is pending it is the
   * last of `timeouts`; once it has fired or been cleared the ref still holds
   * it (nothing resets the ref), and clearing it again does nothing.
   */
  datatype MoleState = MoleState(
    popping: bool,
    feisty: bool,
    healing: bool,
    whacked: bool,
    attacking: bool,
    clip: Clip,
    timeouts: seq<Timeout>,
    refPending: bool)

  datatype Outcome = Outcome(next: MoleState, signals: seq<Signal>)

  /** Things that happen to a mole: a spawn with its two random rolls, the
      current animation finishing, the oldest timeout firing, a tap. */
  datatype Event = Pop(feisty: bool, healing: bool) | AnimationFinished | TimeoutFired | Tap

  const Initial: MoleState := MoleState(false, false, false, false, false, Stopped, [], false)

  /** Fully down: not popping and nothing pending. */
  predicate AtRest(s: MoleState) {
    !s.popping && s.clip == Stopped && s.timeouts == []
  }

  /** The guard of `whack`. */
  predicate Tappable(s: MoleState) {
    s.popping && !s.whacked && !s.attacking
  }

  /** JavaScript truthiness of the `molePop` prop: `null` and `0` are falsy. */
  predicate Truthy(p: Option<int>) {
    p.Some? && p.value != 0
  }

  /** The `molePop` effect runs when the prop changed, and pops when it is truthy. */
  function PopEffectFires(prev: Option<int>, next: Option<int>): (fires: bool)
    ensures fires ==> next.Some? && next.value != 0
    ensures prev == next ==> !fires
    ensures prev != next && next.Some? && next.value != 0 ==> fires
  {
    next != prev && Truthy(next)
  }

  /**
   * `pop`: up, not whacked, not attacking; `isFeisty` takes the feisty roll and
   * `isHealing` the healing roll only when not feisty. The branch is chosen by
   * the healing roll alone; the appear branch remembers `isFeisty` as it was
   * before this pop. Pending timeouts are not cancelled.
   */
  function PopStep(s: MoleState, feisty: bool, healing: bool): (o: Outcome)
    ensures Tappable(o.next) && o.signals == []
    ensures o.next.feisty == feisty
    ensures o.next.healing == (if feisty then s.healing else healing)
    ensures o.next.clip == Heal <==> healing
    ensures o.next.clip.Appear? <==> !healing
    ensures o.next.clip.Appear? ==> o.next.clip.feistyBeforePop == s.feisty
    ensures o.next.timeouts == s.timeouts && o.next.refPending == s.refPending
  {
    var next := s.(whacked := false, attacking := false, popping := true,
                   feisty := feisty,
                   healing := if !feisty then healing else s.healing,
                   clip := if healing then Heal else Appear(s.feisty));
    Outcome(next, [])
  }

  /** A finish callback that sets a timeout and stores it in `actionTimeoutRef`. */
  function Arm(s: MoleState, t: Timeout): (next: MoleState)
    ensures next.timeouts == s.timeouts + [t] && next.refPending && next.clip == Stopped
    ensures next.(clip := s.clip, timeouts := s.timeouts, refPending := s.refPending) == s
  {
    s.(clip := Stopped, timeouts := s.timeouts + [t], refPending := true)
  }

  /**
   * The finish callback of the animation in flight. Heal and appear arm a
   * timeout and store it in `actionTimeoutRef` (appear arms the attack only
   * when the captured `isFeisty` was set); attack chains into hide and dizzy
   * into faint; hide and faint end the spawn.
   */
  function AnimationFinishedStep(s: MoleState, index: int): (o: Outcome)
    ensures s.clip.Stopped? ==> o.next == s && o.signals == []
    ensures s.clip.Hide? || s.clip.Faint? ==>
              !o.next.popping && o.next.clip == Stopped && o.signals == [OnFinishPopping(index)]
    ensures !s.clip.Hide? && !s.clip.Faint? ==> o.next.popping == s.popping && o.signals == []
    ensures o.next.whacked == s.whacked && o.next.attacking == s.attacking
    ensures o.next.feisty == s.feisty && o.next.healing == s.healing
    ensures s.clip.Heal? ==> o.next.clip == Stopped && o.next.timeouts == s.timeouts + [HideAfterHeal]
    ensures s.clip.Appear? ==>
              o.next.clip == Stopped &&
              o.next.timeouts == s.timeouts + [if s.clip.feistyBeforePop then AttackAfterAppear else HideAfterAppear]
  {
    match s.clip
    case Stopped => Outcome(s, [])
    case Heal => Outcome(Arm(s, HideAfterHeal), [])
    case Appear(wasFeisty) => Outcome(Arm(s, if wasFeisty then AttackAfterAppear else HideAfterAppear), [])
    case Attack => Outcome(s.(clip := Hide), [])
    case Hide => Outcome(s.(clip := Stopped, popping := false), [OnFinishPopping(index)])
    case Dizzy => Outcome(s.(clip := Faint), [])
    case Faint => Outcome(s.(clip := Stopped, popping := false), [OnFinishPopping(index)])
  }

  /**
   * What each finish callback leaves pending: heal and appear store their
   * timeout in `actionTimeoutRef`; attack goes on with hide and dizzy with
   * faint, leaving the timeouts and the ref alone.
   */
  lemma AnimationFinishedContinues(s: MoleState, index: int)
    ensures var o := AnimationFinishedStep(s, index);
            (s.clip.Heal? || s.clip.Appear? ==> o.next.refPending) &&
            (!s.clip.Heal? && !s.clip.Appear? ==> o.next.timeouts == s.timeouts && o.next.refPending == s.refPending) &&
            (s.clip.Attack? ==> o.next.clip == Hide) &&
            (s.clip.Dizzy? ==> o.next.clip == Faint)
  {
  }

  /**
   * The oldest pending timeout fires. Only the attack timeout emits a signal:
   * it sets `isAttacking` and calls `onDamage` once, then plays "attack";
   * the other two play "hide". When it was the only one pending, it was the
   * one `actionTimeoutRef` holds.
   */
  function TimeoutFiredStep(s: MoleState): (o: Outcome)
    ensures s.timeouts == [] ==> o == Outcome(s, [])
    ensures s.timeouts != [] ==> o.next.timeouts == s.timeouts[1..]
    ensures OnDamage in o.signals <==> s.timeouts != [] && s.timeouts[0] == AttackAfterAppear
    ensures OnDamage in o.signals ==> o.signals == [OnDamage] && o.next.attacking && !Tappable(o.next)
    ensures OnDamage !in o.signals ==> o.signals == [] && o.next.attacking == s.attacking
    ensures s.timeouts != [] ==> o.next.clip == (if s.timeouts[0] == AttackAfterAppear then Attack else Hide)
    ensures s.timeouts != [] ==> o.next.refPending == (s.refPending && |s.timeouts| > 1)
    ensures o.next.popping == s.popping && o.next.whacked == s.whacked
    ensures o.next.feisty == s.feisty && o.next.healing == s.healing
  {
    if s.timeouts == [] then Outcome(s, [])
    else
      var rest := s.timeouts[1..];
      var ref := s.refPending && |s.timeouts| > 1;
      match s.timeouts[0]
      case HideAfterHeal => Outcome(s.(clip := Hide, timeouts := rest, refPending := ref), [])
      case HideAfterAppear => Outcome(s.(clip := Hide, timeouts := rest, refPending := ref), [])
      case AttackAfterAppear =>
        Outcome(s.(attacking := true, clip := Attack, timeouts := rest, refPending := ref), [OnDamage])
  }

  /**
   * `whack`: nothing at all unless the mole is up, not whacked and not
   * attacking. Otherwise it clears the timeout `actionTimeoutRef` holds, which
   * cancels it only while it is still pending (an older pending timeout is not
   * touched), sets `isWhacked` and clears `isFeisty`, calls `onScore` once and
   * `onHeal` once exactly when `isHealing`, and plays "dizzy".
   */
  function WhackStep(s: MoleState): (o: Outcome)
    ensures !Tappable(s) ==> o == Outcome(s, [])
    ensures Tappable(s) ==> o.next.whacked && !o.next.feisty && o.next.popping && o.next.clip == Dizzy
    ensures Tappable(s) ==> multiset(o.signals)[OnScore] == 1 && OnDamage !in o.signals
    ensures Tappable(s) ==> (OnHeal in o.signals <==> s.healing) && multiset(o.signals)[OnHeal] <= 1
    ensures Tappable(s) ==> |o.signals| == 1 + (if s.healing then 1 else 0)
    ensures Tappable(s) && s.refPending && s.timeouts != [] ==> o.next.timeouts == s.timeouts[..|s.timeouts| - 1]
    ensures Tappable(s) && !s.refPending ==> o.next.timeouts == s.timeouts
    ensures Tappable(s) ==> !o.next.refPending
    ensures o.next.attacking == s.attacking && o.next.healing == s.healing
  {
    if !Tappable(s) then Outcome(s, [])
    else
      var pending := if s.refPending && s.timeouts != [] then s.timeouts[..|s.timeouts| - 1] else s.timeouts;
      var next := s.(timeouts := pending, refPending := false, whacked := true, feisty := false, clip := Dizzy);
      Outcome(next, [OnScore] + (if s.healing then [OnHeal] else []))
  }

  function Step(s: MoleState, index: int, e: Event): Outcome {
    match e
    case Pop(feisty, healing) => PopStep(s, feisty, healing)
    case AnimationFinished => AnimationFinishedStep(s, index)
    case TimeoutFired => TimeoutFiredStep(s)
    case Tap => WhackStep(s)
  }

  /** The state after a sequence of events, with every signal emitted on the way. */
  function Run(s: MoleState, index: int, events: seq<Event>): Outcome
    decreases |events|
  {
    if events == [] then Outcome(s, [])
    else
      var o := Step(s, index, events[0]);
      var r := Run(o.next, index, events[1..]);
      Outcome(r.next, o.signals + r.signals)
  }

  /** While the timeout in `actionTimeoutRef` is pending, some timeout is pending. */
  predicate RefTracked(s: MoleState) {
    s.refPending ==> s.timeouts != []
  }

  /** Every event keeps `RefTracked`; it holds of `Initial`. */
  lemma StepKeepsRefTracked(s: MoleState, index: int, e: Event)
    requires RefTracked(s)
    ensures RefTracked(Initial)
    ensures RefTracked(Step(s, index, e).next)
  {
  }

  /**
   * A tap only cancels the timeout set last. A feisty mole popped twice in
   * a row, with the prop changing in between, has an attack timeout and a
   * hide timeout pending; a tap cancels the hide timeout, and a tap after
   * the next spawn cancels nothing, so the older attack still fires and
   * damages the player although the mole was tapped twice.
   */
  lemma StaleRefLeavesOlderAttack(index: int)
    ensures var r := Run(Initial.(feisty := true), index,
              [Pop(false, false), AnimationFinished, Pop(false, false), AnimationFinished] +
              [Tap, Pop(false, false), Tap, TimeoutFired]);
            multiset(r.signals)[OnScore] == 2 && r.signals[|r.signals| - 1] == OnDamage &&
            r.next.whacked && r.next.attacking
  {
    var s4 := MoleState(true, false, false, false, false, Stopped, [AttackAfterAppear, HideAfterAppear], true);
    DoubleSpawnArmsTwo(index, [Tap, Pop(false, false), Tap, TimeoutFired]);
    TwoTapsAfterDoubleSpawn(s4, index);
    assert multiset([OnScore, OnScore, OnDamage])[OnScore] == 2;
  }

  /**
   * The first half of `StaleRefLeavesOlderAttack`: two spawns of a feisty
   * mole, each finishing "appear", leave an attack and a hide timeout pending.
   */
  lemma DoubleSpawnArmsTwo(index: int, rest: seq<Event>)
    ensures Run(Initial.(feisty := true), index,
                [Pop(false, false), AnimationFinished, Pop(false, false), AnimationFinished] + rest)
         == Run(MoleState(true, false, false, false, false, Stopped, [AttackAfterAppear, HideAfterAppear], true),
                index, rest)
  {
    var s0 := Initial.(feisty := true);
    var s1 := s0.(popping := true, feisty := false, clip := Appear(true));
    var s2 := s1.(clip := Stopped, timeouts := [AttackAfterAppear], refPending := true);
    var s3 := s2.(clip := Appear(false));
    var s4 := s3.(clip := Stopped, timeouts := [AttackAfterAppear, HideAfterAppear]);
    var e3 := [AnimationFinished] + rest;
    var e2 := [Pop(false, false)] + e3;
    var e1 := [AnimationFinished] + e2;
    var r := Run(s4, index, rest);
    assert AnimationFinishedStep(s3, index) == Outcome(s4, []);
    RunCons(s3, index, AnimationFinished, rest);
    assert [] + r.signals == r.signals;
    assert PopStep(s2, false, false) == Outcome(s3, []);
    RunCons(s2, index, Pop(false, false), e3);
    assert AnimationFinishedStep(s1, index) == Outcome(s2, []);
    RunCons(s1, index, AnimationFinished, e2);
    assert PopStep(s0, false, false) == Outcome(s1, []);
    RunCons(s0, index, Pop(false, false), e1);
    assert [Pop(false, false)] + e1 == [Pop(false, false), AnimationFinished, Pop(false, false), AnimationFinished] + rest;
  }

  /** The second half of `StaleRefLeavesOlderAttack`, from the two pending timeouts on. */
  lemma TwoTapsAfterDoubleSpawn(s4: MoleState, index: int)
    requires s4 == MoleState(true, false, false, false, false, Stopped, [AttackAfterAppear, HideAfterAppear], true)
    ensures Run(s4, index, [Tap, Pop(false, false), Tap, TimeoutFired])
         == Outcome(s4.(whacked := true, attacking := true, clip := Attack, timeouts := [], refPending := false),
                    [OnScore, OnScore, OnDamage])
  {
    var s5 := s4.(timeouts := [AttackAfterAppear], refPending := false, whacked := true, clip := Dizzy);
    var s6 := s5.(whacked := false, clip := Appear(false));
    var s7 := s6.(whacked := true, clip := Dizzy);
    var s8 := s7.(attacking := true, clip := Attack, timeouts := []);
    var e7 := [TimeoutFired];
    var e6 := [Tap] + e7;
    var e5 := [Pop(false, false)] + e6;
    RunCons(s7, index, TimeoutFired, []);
    assert Run(s7, index, e7) == Outcome(s8, [OnDamage]);
    RunCons(s6, index, Tap, e7);
    assert Run(s6, index, e6) == Outcome(s8, [OnScore, OnDamage]);
    RunCons(s5, index, Pop(false, false), e5[1..]);
    assert Run(s5, index, e5) == Outcome(s8, [OnScore, OnDamage]);
    assert WhackStep(s4) == Outcome(s5, [OnScore]);
    RunCons(s4, index, Tap, e5);
    assert [Tap] + e5 == [Tap, Pop(false, false), Tap, TimeoutFired];
  }

  /** A run is its first step followed by the run of the rest. */
  lemma RunCons(s: MoleState, index: int, e: Event, events: seq<Event>)
    ensures var o := Step(s, index, e);
            var r := Run(o.next, index, events);
            Run(s, index, [e] + events) == Outcome(r.next, o.signals + r.signals)
  {
    assert ([e] + events)[0] == e && ([e] + events)[1..] == events;
  }

  predicate NoPops(events: seq<Event>) {
    forall k :: 0 <= k < |events| ==> !events[k].Pop?
  }

  lemma NoPopsTail(events: seq<Event>)
    requires events != [] && NoPops(events)
    ensures NoPops(events[1..])
  {
    forall k | 0 <= k < |events[1..]| ensures !events[1..][k].Pop? {
      assert events[1..][k] == events[k + 1];
    }
  }

  /**
   * What holds at every point of one spawn that started at rest, given the
   * signals emitted since the spawn (all of them about this mole: they are
   * all counted by kind): at most one continuation is pending and one is
   * pending while the mole is up; `onFinishPopping` has been called once
   * exactly when the mole is down again; `onDamage` once exactly when it
   * attacked and `onScore` once exactly when it was whacked, never both.
   */
  ghost predicate InCycle(s: MoleState, index: int, m: multiset<Signal>) {
    (s.timeouts == [] || (|s.timeouts| == 1 && s.clip == Stopped)) &&
    (s.popping <==> (s.clip != Stopped || s.timeouts != [])) &&
    (s.timeouts != [] ==> s.refPending) &&
    m[OnFinishPopping(index)] == (if s.popping then 0 else 1) &&
    |m| == m[OnDamage] + m[OnScore] + m[OnHeal] + m[OnFinishPopping(index)] &&
    m[OnDamage] == (if s.attacking then 1 else 0) &&
    m[OnScore] == (if s.whacked then 1 else 0) &&
    m[OnHeal] <= m[OnScore] &&
    !(s.whacked && s.attacking) &&
    (s.clip == Dizzy || s.clip == Faint ==> s.whacked) &&
    (s.clip == Attack ==> s.attacking) &&
    (s.whacked || s.attacking ==> s.timeouts == [] && !s.clip.Heal? && !s.clip.Appear?) &&
    (s.attacking ==> s.clip != Dizzy && s.clip != Faint) &&
    (s.whacked ==> s.clip != Hide)
  }

  lemma PopFromRestStartsCycle(s: MoleState, index: int, feisty: bool, healing: bool)
    requires AtRest(s)
    ensures InCycle(PopStep(s, feisty, healing).next, index, multiset{})
  {
  }

  lemma AnimationFinishedKeepsCycle(s: MoleState, index: int, m: multiset<Signal>)
    requires InCycle(s, index, m)
    ensures var o := AnimationFinishedStep(s, index); InCycle(o.next, index, m + multiset(o.signals))
  {
  }

  lemma TimeoutFiredKeepsCycle(s: MoleState, index: int, m: multiset<Signal>)
    requires InCycle(s, index, m)
    ensures var o := TimeoutFiredStep(s); InCycle(o.next, index, m + multiset(o.signals))
  {
  }

  lemma WhackKeepsCycle(s: MoleState, index: int, m: multiset<Signal>)
    requires InCycle(s, index, m)
    ensures var o := WhackStep(s); InCycle(o.next, index, m + multiset(o.signals))
  {
  }

  lemma StepKeepsCycle(s: MoleState, index: int, m: multiset<Signal>, e: Event)
    requires InCycle(s, index, m) && !e.Pop?
    ensures var o := Step(s, index, e); InCycle(o.next, index, m + multiset(o.signals))
  {
    match e
    case AnimationFinished => AnimationFinishedKeepsCycle(s, index, m);
    case TimeoutFired => TimeoutFiredKeepsCycle(s, index, m);
    case Tap => WhackKeepsCycle(s, index, m);
  }

  /** The spawn invariant survives any run of events that contains no new spawn. */
  lemma {:induction false} RunKeepsCycle(s: MoleState, index: int, m: multiset<Signal>, events: seq<Event>)
    requires InCycle(s, index, m) && NoPops(events)
    ensures var r := Run(s, index, events); InCycle(r.next, index, m + multiset(r.signals))
    decreases |events|
  {
    if events == [] {
      assert m + multiset([]) == m;
    } else {
      var o := Step(s, index, events[0]);
      StepKeepsCycle(s, index, m, events[0]);
      NoPopsTail(events);
      var m' := m + multiset(o.signals);
      RunKeepsCycle(o.next, index, m', events[1..]);
      var r := Run(o.next, index, events[1..]);
      assert m' + multiset(r.signals) == m + multiset(o.signals + r.signals);
    }
  }

  /**
   * One spawn from rest, followed by any taps, animation ends and timeouts
   * (and no second spawn): `onFinishPopping(index)` is called once exactly
   * when the mole is down again and never twice; an attack and a whack
   * exclude each other; `onHeal` comes only with `onScore`; no signal is
   * about another mole; and while the mole is up some continuation is still
   * pending, so it is never stuck.
   */
  lemma SpawnCycle(s: MoleState, index: int, feisty: bool, healing: bool, events: seq<Event>)
    requires AtRest(s) && NoPops(events)
    ensures var r := Run(s, index, [Pop(feisty, healing)] + events);
            var m := multiset(r.signals);
            m[OnFinishPopping(index)] == (if r.next.popping then 0 else 1) &&
            m[OnDamage] + m[OnScore] <= 1 &&
            m[OnHeal] <= m[OnScore] &&
            |r.signals| == m[OnDamage] + m[OnScore] + m[OnHeal] + m[OnFinishPopping(index)] &&
            (OnDamage in m ==> r.next.attacking && !r.next.whacked) &&
            (r.next.popping ==> r.next.clip != Stopped || r.next.timeouts != [])
  {
    var all := [Pop(feisty, healing)] + events;
    assert all[0] == Pop(feisty, healing) && all[1..] == events;
    var p := PopStep(s, feisty, healing);
    PopFromRestStartsCycle(s, index, feisty, healing);
    RunKeepsCycle(p.next, index, multiset{}, events);
    var r := Run(p.next, index, events);
    assert multiset{} + multiset(r.signals) == multiset(r.signals);
  }

  /**
   * Once a mole has attacked, no event short of a new spawn makes it
   * tappable again: taps score nothing and heal nothing until the next `pop`.
   */
  lemma {:induction false} AttackingIgnoresTaps(s: MoleState, index: int, events: seq<Event>)
    requires s.attacking && NoPops(events)
    ensures var r := Run(s, index, events);
            r.next.attacking && OnScore !in r.signals && OnHeal !in r.signals
    decreases |events|
  {
    if events != [] {
      var o := Step(s, index, events[0]);
      NoPopsTail(events);
      AttackingIgnoresTaps(o.next, index, events[1..]);
      assert OnScore !in o.signals && OnHeal !in o.signals;
    }
  }

  /**
   * The events that finish a spawn without further taps: the remaining
   * animation ends and timeouts, at most four of them.
   */
  function Completion(s: MoleState): (events: seq<Event>)
    ensures |events| <= 4 && NoPops(events)
  {
    if !s.popping then []
    else if s.timeouts != [] then
      (if s.timeouts[0] == AttackAfterAppear then [TimeoutFired, AnimationFinished, AnimationFinished]
       else [TimeoutFired, AnimationFinished])
    else
      match s.clip
      case Stopped => []
      case Heal => [AnimationFinished, TimeoutFired, AnimationFinished]
      case Appear(wasFeisty) =>
        if wasFeisty then [AnimationFinished, TimeoutFired, AnimationFinished, AnimationFinished]
        else [AnimationFinished, TimeoutFired, AnimationFinished]
      case Attack => [AnimationFinished, AnimationFinished]
      case Hide => [AnimationFinished]
      case Dizzy => [AnimationFinished, AnimationFinished]
      case Faint => [AnimationFinished]
  }

  /** While the mole is up, `Completion` starts with an enabled event and goes on with the rest. */
  lemma CompletionUnfolds(s: MoleState, index: int, m: multiset<Signal>)
    requires InCycle(s, index, m) && s.popping
    ensures var es := Completion(s);
            es != [] && es[1..] == Completion(Step(s, index, es[0]).next)
  {
  }

  /** Every spawn can finish: from any point of a spawn, `Completion` brings the mole down. */
  lemma {:induction false} CompletionEndsSpawn(s: MoleState, index: int, m: multiset<Signal>)
    requires InCycle(s, index, m)
    ensures AtRest(Run(s, index, Completion(s)).next)
    decreases |Completion(s)|
  {
    var es := Completion(s);
    if s.popping {
      CompletionUnfolds(s, index, m);
      var o := Step(s, index, es[0]);
      StepKeepsCycle(s, index, m, es[0]);
      CompletionEndsSpawn(o.next, index, m + multiset(o.signals));
    }
  }

  /**
   * A mole of the grid. Its methods change the fields step by step as the
   * component does and are proved to agree with the step functions above.
   */
  class Mole {
    const index: int
    var isPopping: bool
    var isFeisty: bool
    var isHealing: bool
    var isWhacked: bool
    var isAttacking: bool
    var clip: Clip                 // the sprite player's current animation and pending finish callback
    var timeouts: seq<Timeout>     // pending timeouts, oldest first
    var refPending: bool           // the timeout in `actionTimeoutRef` has neither fired nor been cleared

    function State(): MoleState
      reads this
    {
      MoleState(isPopping, isFeisty, isHealing, isWhacked, isAttacking, clip, timeouts, refPending)
    }

    constructor (index: int)
      ensures this.index == index && State() == Initial && AtRest(State())
    {
      this.index := index;
      isPopping, isFeisty, isHealing, isWhacked, isAttacking := false, false, false, false, false;
      clip := Stopped;
      timeouts := [];
      refPending := false;
    }

    method Pop(feistyRoll: bool, healingRoll: bool) returns (signals: seq<Signal>)
      modifies this
      ensures State() == PopStep(old(State()), feistyRoll, healingRoll).next
      ensures signals == []
    {
      var feistyBeforePop := isFeisty;
      isWhacked := false;
      isAttacking := false;
      isPopping := true;
      var feisty := feistyRoll;
      isFeisty := feisty;
      var healing := healingRoll;
      if !feisty {
        isHealing := healing;
      }
      if healing {
        clip := Heal;
      } else {
        clip := Appear(feistyBeforePop);
      }
      signals := [];
    }

    method AnimationFinished() returns (signals: seq<Signal>)
      modifies this
      ensures State() == AnimationFinishedStep(old(State()), index).next
      ensures signals == AnimationFinishedStep(old(State()), index).signals
    {
      signals := [];
      match clip
      case Stopped =>
      case Heal =>
        clip := Stopped;
        timeouts := timeouts + [HideAfterHeal];
        refPending := true;
      case Appear(wasFeisty) =>
        clip := Stopped;
        if wasFeisty {
          timeouts := timeouts + [AttackAfterAppear];
        } else {
          timeouts := timeouts + [HideAfterAppear];
        }
        refPending := true;
      case Attack =>
        clip := Hide;
      case Dizzy =>
        clip := Faint;
      case Hide =>
        clip := Stopped;
        isPopping := false;
        signals := [OnFinishPopping(index)];
      case Faint =>
        clip := Stopped;
        isPopping := false;
        signals := [OnFinishPopping(index)];
    }

    method TimeoutFired() returns (signals: seq<Signal>)
      modifies this
      ensures State() == TimeoutFiredStep(old(State())).next
      ensures signals == TimeoutFiredStep(old(State())).signals
    {
      signals := [];
      if timeouts != [] {
        var fired := timeouts[0];
        if |timeouts| == 1 {
          refPending := false;
        }
        timeouts := timeouts[1..];
        match fired
        case HideAfterHeal =>
          clip := Hide;
        case HideAfterAppear =>
          clip := Hide;
        case AttackAfterAppear =>
          isAttacking := true;
          signals := [OnDamage];
          clip := Attack;
      }
    }

    method Whack() returns (signals: seq<Signal>)
      modifies this
      ensures State() == WhackStep(old(State())).next
      ensures signals == WhackStep(old(State())).signals
    {
      signals := [];
      if !isPopping || isWhacked || isAttacking {
        return;
      }
      if refPending {
        if timeouts != [] {
          timeouts := timeouts[..|timeouts| - 1];
        }
        refPending := false;
      }
      isWhacked := true;
      isFeisty := false;
      signals := signals + [OnScore];
      if isHealing {
        signals := signals + [OnHeal];
      }
      clip := Dizzy;
    }
  }
}

=== FILE: option.dfy ===
/** A JavaScript value that may be `null` (or `undefined`). */
module Opt {
  datatype Option<T> = None | Some(value: T)
}
